=== FILE: README.md ===
# ObjectRecognizer: decoding, assembly and the video loop

This project models the bookkeeping of the `ObjectRecognizer` class of the
yolo-api object detection service
(`src/obj_detection/object_detection.py`). OpenCV and numpy do the numeric
work there; this model covers what the class itself adds around those calls.

- **Candidate decoding** (`__get_recognition_details`). Each row of each
  network output layer is decoded. The row's best class score is taken with
  `np.argmax`, which picks the first maximum. The row is kept only when
  that score is strictly above 0.5. Its normalised centre and size become a
  pixel box, using Python's `int()`, which truncates toward zero. The kept
  rows fill three parallel lists: boxes, confidences and class ids.
- **Detection assembly** (the non-drawing part of
  `__show_image_with_boxes`). One record is built per index that survives
  non-maximum suppression. It holds the label, the confidence and the box
  centre recomputed in integer pixels.
- **The video loop** (`detect_objects_in_video`, `__handle_frame`,
  `__image_handler`, `__setup_video_capture`, `__teardown_video_capture`).
  The loop runs frames 1 to 20. Each frame's detections are tagged with the
  frame number and appended. The capture and writer handles are opened and
  released around the loop.

The model has six modules:

- `Outcomes` models Python exceptions. `Outcome<T>` is a list built by
  appending, together with whether an exception cut the building short.
  `Result` and `Status` report an exception from a whole call. Three faults
  occur:
  - `EmptyScores`: `np.argmax` on an empty score slice;
  - `IndexOutOfRange`: a surviving index or a class id that cannot be looked up;
  - `NoFrame`: reading `.shape` of the `None` that an exhausted capture returns.
- `Geometry` holds `Trunc` (Python's `int()` on a float) and the box arithmetic.
- `Decoder` holds the specification of the decoding loop (`Decode`) and the
  reference filter it is proved equal to (`Kept`).
- `Assembly` holds the detection records.
- `Video` holds the per-frame pipeline and the specification of the
  20-frame loop (`VideoRun`).
- `Recognizer` holds the classes `Capture`, `Writer` and `ObjectRecognizer`.
  Their methods update fields in place, as the source does. Each method is
  proved against the functions above.

The source never checks the `ret` flag of `cap.read()`. So the loop as
written does not stop when the source runs out: on a source with fewer than
20 frames it raises, and the handles are never released. The comment at
line 79 ("When everything done, release the capture") and the video route
(`src/obj_detection/routes.py:26`), which passes every uploaded video
whatever its length, point to a loop meant to stop at the end of the source
and to release the handles. The model follows the code.
`DetectObjectsInVideo` is the loop as written. `DetectObjectsInVideoChecked`
is the intended loop (see "## Findings").

## Model

| member | source | states |
|---|---|---|
| Geometry.Trunc | src/obj_detection/object_detection.py:120-126 | Python's `int()` on a float, truncating toward zero; TruncTowardZero states what it gives |
| Geometry.TruncTowardZero | src/obj_detection/object_detection.py:120-126 | `int()` on a float drops the fraction: it rounds down for values that are not negative and up for negative values |
| Geometry.ToPixels | src/obj_detection/object_detection.py:120-123 | `int(detection[i] * extent)`: a normalised coordinate in pixels; ScaleIsProduct and ToPixelsBounds describe it |
| Geometry.TopLeft | src/obj_detection/object_detection.py:125-126 | `int(center - size/2)`, the top-left edge; TopLeftWithinOne describes it |
| Geometry.CentreOf | src/obj_detection/object_detection.py:154 | `int(edge + size/2)`, the reported centre; CentreWithinOne and CentreRoundTrip describe it |
| Geometry.ScaleIsProduct | src/obj_detection/object_detection.py:120-123 | the scaled coordinate is the product `detection[i] * extent` |
| Geometry.ToPixelsBounds | src/obj_detection/object_detection.py:120-123 | a normalised coordinate that is not negative scales to a pixel count between 0 and the exact scaled value; one in [0, 1) stays below the extent |
| Geometry.TopLeftWithinOne | src/obj_detection/object_detection.py:125-126 | the top-left edge `int(center_x - w/2)` is within one pixel of the exact value |
| Geometry.CentreWithinOne | src/obj_detection/object_detection.py:154 | the reported centre `int(x + w/2)` is within one pixel of the exact value |
| Geometry.CentreRoundTrip | src/obj_detection/object_detection.py:154 | for a centre and size that are not negative, the centre recomputed from the truncated top-left edge is the original centre, or one less for an odd size when the edge was truncated down; it always lies in [0, center] |
| Geometry.CentreRoundTripBelowZero | src/obj_detection/object_detection.py:154 | for a negative centre and a size that is not negative, the recomputed centre is the original centre for an even size and one more for an odd size (no clipping) |
| Decoder.ArgMax | src/obj_detection/object_detection.py:117 | `np.argmax` of the class scores: an index of the scores; ArgMaxIsFirstMax says it is the first largest |
| Decoder.ArgMaxIsFirstMax | src/obj_detection/object_detection.py:116-118 | the chosen class score is a maximum of the scores, and every earlier score is strictly smaller (first index on ties, as `np.argmax` does) |
| Decoder.RowBox | src/obj_detection/object_detection.py:120-126 | the pixel box `[x, y, w, h]` of a row; RowBoxPlacement describes it |
| Decoder.RowBoxPlacement | src/obj_detection/object_detection.py:120-129 | the stored box has the scaled width and height, and its corner is within one pixel of the scaled centre minus half the size, unclipped |
| Decoder.DecodeRow | src/obj_detection/object_detection.py:116-131 | what the loop body keeps of one row, if anything; DecodeRowKeeps describes it |
| Decoder.DecodeRowKeeps | src/obj_detection/object_detection.py:116-131 | a row is kept if and only if one of its class scores exceeds 0.5; the kept class id is the first best index, and the kept confidence is that score, above 0.5 |
| Decoder.Flatten | src/obj_detection/object_detection.py:114-115 | every row of every layer is visited |
| Decoder.Decode | src/obj_detection/object_detection.py:109-132 | the decoding loop after `n` rows keeps at most `n` candidates, each with confidence above 0.5 |
| Decoder.DecodePrefix | src/obj_detection/object_detection.py:114-131 | what the loop holds after `n` rows depends on those rows only |
| Decoder.DecodeRaisedIsFinal | src/obj_detection/object_detection.py:116-117 | once `np.argmax` has raised, later rows change nothing |
| Decoder.Kept | src/obj_detection/object_detection.py:114-131 | reference filter: the decoded rows whose best score passes 0.5, in row order; DecodeIsKept and KeptComesFromRows tie the loop to it |
| Decoder.DecodeKeepsPrefix | src/obj_detection/object_detection.py:114-131 | up to the first row without scores, the loop holds exactly the rows the reference filter keeps, in row order |
| Decoder.DecodeIsKept | src/obj_detection/object_detection.py:109-132 | the loop completes if and only if every row has scores; its lists hold the reference filter of the rows before the first row without scores, and an exception is always `EmptyScores` |
| Decoder.DecodeRaisedThrough | src/obj_detection/object_detection.py:114-117 | an exception in one layer decides the outcome of the whole call, with later layers unread |
| Decoder.KeptComesFromRows | src/obj_detection/object_detection.py:114-131 | a candidate is kept if and only if some input row decodes to it |
| Assembly.Record | src/obj_detection/object_detection.py:146-154 | the record of one candidate: label, confidence and recomputed centre; AssembleRecords and CentreInsideImage describe it |
| Assembly.Assemble | src/obj_detection/object_detection.py:136-155 | no surviving index gives no records; otherwise there is one record per index until an index cannot be looked up, where `IndexOutOfRange` is raised with the records so far kept |
| Assembly.AssembleRecords | src/obj_detection/object_detection.py:144-154 | record `k` is built from the candidate at surviving index `k`: `classes[class_ids[i]]`, its confidence and `int(x + w/2)`, `int(y + h/2)` |
| Assembly.CentreInsideImage | src/obj_detection/object_detection.py:120-154 | for a row whose normalised centre is in [0, 1) and whose size is not negative, the reported centre lies inside the image |
| Video.FrameDetections | src/obj_detection/object_detection.py:83-95 | one frame through decoding, suppression and assembly (the latter at lines 134-155): the detections, or the exception raised; ImageHandler is proved against it |
| Video.VideoRun | src/obj_detection/object_detection.py:65-77 | the loop after frames 1 to `n`: each frame handled without error appends its detections tagged with its number; a missing frame or an exception ends the run. VideoRunOk, VideoRunFrames, VideoRunFrameNumbers, VideoRunErrIsFinal and VideoRunStops describe it |
| Video.VideoRunFrameNumbers | src/obj_detection/object_detection.py:65-77 | every entry of the frame data after `n` frames carries a frame number in 1..n |
| Video.VideoRunErrIsFinal | src/obj_detection/object_detection.py:72 | an exception in one frame ends the loop, so later frames change nothing |
| Video.VideoRunStops | src/obj_detection/object_detection.py:72 | a missing frame ends the run with `NoFrame`, and a frame the detector raises on ends it with that fault |
| Video.VideoRunOk | src/obj_detection/object_detection.py:65-77 | the loop completes `n` frames if and only if the source has `n` frames and none of them raises |
| Video.VideoRunFrames | src/obj_detection/object_detection.py:73-77 | after a completed run, the entries tagged `k` are exactly frame `k`'s detections in their order, for each handled frame, and no entry has another tag |
| Video.ShortSourceRaises | src/obj_detection/object_detection.py:85-104 | with fewer frames than the loop handles, the read past the end (line 99) leaves `self.img` as `None`, and `self.img.shape` (line 85, reached from line 104) raises `NoFrame`, even when every frame is handled |
| Video.FramesHandled | src/obj_detection/object_detection.py:65-71 | a loop that stops at the end of the source handles 20 frames, or every frame when there are fewer |
| Video.CheckedRunCompletes | src/obj_detection/object_detection.py:65-71 | with the end of the source checked, the loop finishes for any source whose frames are handled without error, however short |
| Recognizer.Capture.constructor | src/obj_detection/object_detection.py:56-59 | a capture starts at its first frame, unreleased |
| Recognizer.Capture.Read | src/obj_detection/object_detection.py:99 | `cap.read()` yields the next frame and moves past it, or yields nothing at the end of the source or after release |
| Recognizer.Capture.Release | src/obj_detection/object_detection.py:178 | release is recorded on the capture |
| Recognizer.Writer.constructor | src/obj_detection/object_detection.py:171 | the writer records its path, codec, rate and size, and starts empty |
| Recognizer.Writer.Write | src/obj_detection/object_detection.py:106-107 | an open writer appends the frame |
| Recognizer.Writer.Release | src/obj_detection/object_detection.py:176 | release is recorded on the writer |
| Recognizer.ObjectRecognizer.constructor | src/obj_detection/object_detection.py:19-26 | the recognizer holds the labels, the network and the suppressor, writes only if asked, and its pipeline is decode, suppress, assemble |
| Recognizer.ObjectRecognizer.GetRecognitionDetails | src/obj_detection/object_detection.py:109-132 | the three lists become exactly the boxes, confidences and class ids of the decoding loop over all layers, whatever they held before; an `np.argmax` exception leaves what was appended before it |
| Recognizer.ObjectRecognizer.ShowImageWithBoxes | src/obj_detection/object_detection.py:134-155 | the detections become the assembled records for the surviving indexes, and an exception is reported where an index cannot be looked up |
| Recognizer.ObjectRecognizer.ImageHandler | src/obj_detection/object_detection.py:83-95 | the image's dimensions are recorded, the lists are decoded from the network's outputs, and the detections are the frame's pipeline result; when assembly raises, the detections hold the records built before it; a missing image raises `NoFrame` with nothing changed |
| Recognizer.ObjectRecognizer.HandleFrame | src/obj_detection/object_detection.py:97-107 | the frame read becomes `img` and is handled as ImageHandler says (dimensions, lists, detections, partial detections when assembly raises), and is written out only when handling succeeds; an exhausted source raises `NoFrame` with the dimensions, lists and detections unchanged |
| Recognizer.ObjectRecognizer.SetupVideoCapture | src/obj_detection/object_detection.py:164-171 | a fresh writer at `DETECTED_<name>` in the artifacts directory, codec `mp4v`, 5 fps, size `int(frame size + 0.5)` |
| Recognizer.ObjectRecognizer.TeardownVideoCapture | src/obj_detection/object_detection.py:173-182 | each handle that is open is released exactly once, and both become null |
| Recognizer.ObjectRecognizer.HandleNumberedFrame | src/obj_detection/object_detection.py:69-77 | one pass of the loop body for frame `ind`: the frame data grows as the loop specification says, or the exception ends the whole run |
| Recognizer.ObjectRecognizer.DetectObjectsInVideo | src/obj_detection/object_detection.py:54-81 | the recognizer stays valid for the next call; the result is the 20-frame loop specification over what the capture still holds; only a run without exception releases the handles, having written exactly the 20 frames |
| Recognizer.ObjectRecognizer.HandleNumberedFrameChecked | src/obj_detection/object_detection.py:97-107 | as HandleNumberedFrame, but a read that yields no frame ends the loop without raising and changes nothing |
| Recognizer.ObjectRecognizer.DetectObjectsInVideoChecked | src/obj_detection/object_detection.py:54-81 | the recognizer stays valid for the next call; the result is the loop specification over `FramesHandled` frames; both handles are released on every path |
| Recognizer.DecodeLayers | src/obj_detection/object_detection.py:113-131 | the outer loop over the layers builds the lists of the decoding specification over all rows |
| Recognizer.DecodeLayer | src/obj_detection/object_detection.py:115-131 | the inner loop over one layer's rows extends the lists as the decoding specification does over those rows |
| Recognizer.AppendTagged | src/obj_detection/object_detection.py:73-77 | the frame data gains this frame's detections, each tagged with its number, in order |
| Recognizer.AssembleRaised | src/obj_detection/object_detection.py:144-147 | an index that cannot be looked up ends assembly with `IndexOutOfRange`, keeping the records built before it |

## Left out

- OpenCV and numpy calls are inputs. `readNet`, `blobFromImage`, `setInput`, `getUnconnectedOutLayersNames` and `forward` become the network, a function from a frame to its output layers. `NMSBoxes` becomes the suppressor, a function from boxes and confidences to surviving indexes. The suppression algorithm is not part of this model.
- A capture and a writer are modelled as a list of frames with a read position, and a list of written frames. Codec behaviour and file contents are not modelled.
- Drawing is left out: `cv2.rectangle`, `cv2.putText`, the font, the random colours, the `show` flag and its `imshow`/`waitKey` display loop. So are `cv2.destroyAllWindows` and `print(det)`. The frames written out are the frames as read, without the drawn boxes.
- Recognizer.ObjectRecognizer.ShowImageWithBoxes: the record's confidence is the real score, not the string `str(round(confidence, 2))`.
- Scores are real numbers. float32 rounding and NaN handling in `np.argmax` are not modelled.
- `detect_objects_in_image`, reading the label file, the `load` branch that opens a `cv2.VideoCapture` from a file or camera, the command-line `main`, and the HTTP routes are file and device I/O. They are not part of this model. The capture is a parameter of the video loop.
- Recognizer.ObjectRecognizer.GetRecognitionDetails: the source appends to the three fields directly. The model appends to locals and then assigns the fields. The state is the same both on return and when an exception escapes.
- Recognizer.ObjectRecognizer.DetectObjectsInVideo: `det.update({"frame": ind})` mutates the dictionaries shared with `self.detections`. The model builds new tagged records instead. The frame data is the same either way.
- Frame handling is deterministic here. The random colour draw does not affect the detections.

## Findings

| source | as written | input that shows it | evidently intended | confidence | as-written member | corrected member |
|---|---|---|---|---|---|---|
| src/obj_detection/object_detection.py:99 | `ret` from `cap.read()` is never checked, so the loop always attempts 20 reads | a source of 3 frames, each handled without error: the 4th read yields `None`, `self.img.shape` raises AttributeError, and the teardown at line 80 never runs | stop at the end of the source and release the capture and the writer on every exit path | not executed | Video.ShortSourceRaises | Recognizer.ObjectRecognizer.DetectObjectsInVideoChecked |

=== FILE: assembly.dfy ===
/** Building the detection records from the candidates that survive
    non-maximum suppression (the non-drawing part of showing the boxes). */
module Assembly {
  import opened Outcomes
  import opened Geometry
  import opened Decoder

  /** One reported detection: the class label, the confidence and the
      integer centre recomputed from the box. */
  datatype Detection = Detection(classLabel: string, confidence: real, centerX: int, centerY: int)

  /** Surviving index `i` can be looked up: `boxes[i]` exists and its class
      id names a label. The source checks neither. */
  predicate Resolvable(i: nat, cands: seq<Candidate>, classes: seq<string>) {
    i < |cands| && cands[i].classId < |classes|
  }

  /** The record built for one candidate. */
  function Record(c: Candidate, classes: seq<string>): Detection
    requires c.classId < |classes|
  {
    Detection(classes[c.classId], c.confidence, CentreOf(c.box.x, c.box.w), CentreOf(c.box.y, c.box.h))
  }

  /** The records built for the surviving indexes, in the order the indexes
      come: one per index, until an index cannot be looked up, where the
      source raises IndexError with the records so far already appended. */
  function Assemble(indexes: seq<nat>, cands: seq<Candidate>, classes: seq<string>): (r: Outcome<Detection>)
    ensures indexes == [] ==> r == Completed([])
    ensures |r.out| <= |indexes|
    ensures r.Completed? <==> |r.out| == |indexes|
    ensures r.Raised? ==> !Resolvable(indexes[|r.out|], cands, classes) && r.fault == IndexOutOfRange
    decreases |indexes|
  {
    if |indexes| == 0 then Completed([])
    else
      var prev := Assemble(indexes[..|indexes| - 1], cands, classes);
      var i := indexes[|indexes| - 1];
      if prev.Raised? then prev
      else if !Resolvable(i, cands, classes) then Raised(prev.out, IndexOutOfRange)
      else Completed(prev.out + [Record(cands[i], classes)])
  }

  /** Entry `k` of the records is the record of the candidate surviving
      index `k` names, and that index could be looked up. */
  lemma {:induction false} AssembleRecords(indexes: seq<nat>, cands: seq<Candidate>, classes: seq<string>)
    ensures var r := Assemble(indexes, cands, classes);
            forall k :: 0 <= k < |r.out| ==>
              Resolvable(indexes[k], cands, classes) && r.out[k] == Record(cands[indexes[k]], classes)
    decreases |indexes|
  {
    if |indexes| > 0 {
      var init := indexes[..|indexes| - 1];
      AssembleRecords(init, cands, classes);
      assert forall k :: 0 <= k < |init| ==> init[k] == indexes[k];
    }
  }

  /** For a row whose normalised centre lies in [0, 1) and whose size is not
      negative, the reported centre lies inside the image. */
  lemma {:induction false} CentreInsideImage(row: Row, width: nat, height: nat, classes: seq<string>)
    requires HasScores(row)
    requires 0.0 <= row[0] < 1.0 && 0.0 <= row[1] < 1.0 && 0.0 <= row[2] && 0.0 <= row[3]
    requires width > 0 && height > 0
    requires DecodeRow(row, width, height).Some?
    requires DecodeRow(row, width, height).value.classId < |classes|
    ensures var d := Record(DecodeRow(row, width, height).value, classes);
            0 <= d.centerX < width && 0 <= d.centerY < height
  {
    var c := DecodeRow(row, width, height).value;
    ToPixelsBounds(row[0], width);
    ToPixelsBounds(row[1], height);
    ToPixelsBounds(row[2], width);
    ToPixelsBounds(row[3], height);
    CentreRoundTrip(ToPixels(row[0], width), c.box.w);
    CentreRoundTrip(ToPixels(row[1], height), c.box.h);
  }
}

=== FILE: decoder.dfy ===
/** Turning the raw output rows of the network into candidate boxes: the
    argmax over the class scores, the 0.5 confidence threshold, and the
    conversion of normalised coordinates into pixels of the original image. */
module Decoder {
  import opened Outcomes
  import opened Geometry

  /** One output row of a layer: normalised centre x, centre y, width and
      height, an objectness score, then one score per class. */
  type Row = seq<real>

  /** The confidence a row's best class score must strictly exceed. */
  const Threshold: real := 0.5

  /** The number of leading entries of a row that are not class scores. */
  const ScoresStart: nat := 5

  /** A candidate kept by the decoder; the source holds its three parts in
      the parallel lists `boxes`, `confidences` and `class_ids`. */
  datatype Candidate = Candidate(box: Box, confidence: real, classId: nat)

  /** The three parallel lists the source keeps, each a projection of the
      same candidates. */
  function BoxesOf(cands: seq<Candidate>): seq<Box>
  {
    seq(|cands|, k requires 0 <= k < |cands| => cands[k].box)
  }

  function ConfidencesOf(cands: seq<Candidate>): seq<real>
  {
    seq(|cands|, k requires 0 <= k < |cands| => cands[k].confidence)
  }

  function ClassIdsOf(cands: seq<Candidate>): seq<nat>
  {
    seq(|cands|, k requires 0 <= k < |cands| => cands[k].classId)
  }

  /** `np.argmax`: the first index of a largest element. */
  function ArgMax(s: seq<real>): (k: nat)
    requires |s| > 0
    ensures k < |s|
    decreases |s|
  {
    if |s| == 1 then 0
    else
      var k := ArgMax(s[..|s| - 1]);
      if s[|s| - 1] > s[k] then |s| - 1 else k
  }

  /** ArgMax picks a largest element, and no earlier element is as large. */
  lemma {:induction false} ArgMaxIsFirstMax(s: seq<real>)
    requires |s| > 0
    ensures forall j :: 0 <= j < |s| ==> s[j] <= s[ArgMax(s)]
    ensures forall j :: 0 <= j < ArgMax(s) ==> s[j] < s[ArgMax(s)]
    decreases |s|
  {
    if |s| > 1 {
      var init := s[..|s| - 1];
      ArgMaxIsFirstMax(init);
      assert forall j :: 0 <= j < |init| ==> init[j] == s[j];
    }
  }

  /** A row has at least one class score; otherwise `np.argmax` raises. */
  predicate HasScores(row: Row) {
    |row| > ScoresStart
  }

  /** The pixel box `[x, y, w, h]` of a row, from its normalised centre and
      size scaled by the original image's width and height; no clipping, so
      `x` and `y` can be negative. */
  function RowBox(row: Row, width: nat, height: nat): Box
    requires |row| >= 4
  {
    var centerX := ToPixels(row[0], width);
    var centerY := ToPixels(row[1], height);
    var w := ToPixels(row[2], width);
    var h := ToPixels(row[3], height);
    Box(TopLeft(centerX, w), TopLeft(centerY, h), w, h)
  }

  /** The box has the scaled size, and its top-left corner lies within one
      pixel of the scaled centre minus half the size. */
  lemma RowBoxPlacement(row: Row, width: nat, height: nat)
    requires |row| >= 4
    ensures var b := RowBox(row, width, height);
      && b.w == ToPixels(row[2], width) && b.h == ToPixels(row[3], height)
      && -1.0 < b.x as real - (ToPixels(row[0], width) as real - b.w as real / 2.0) < 1.0
      && -1.0 < b.y as real - (ToPixels(row[1], height) as real - b.h as real / 2.0) < 1.0
  {
    TopLeftWithinOne(ToPixels(row[0], width), ToPixels(row[2], width));
    TopLeftWithinOne(ToPixels(row[1], height), ToPixels(row[3], height));
  }

  /** What the decoder keeps of one row, if anything: the box and the best
      class score with its class id, when that score passes the threshold. */
  function DecodeRow(row: Row, width: nat, height: nat): Option<Candidate>
    requires HasScores(row)
  {
    var scores := row[ScoresStart..];
    var classId := ArgMax(scores);
    var confidence := scores[classId];
    if confidence > Threshold then Some(Candidate(RowBox(row, width, height), confidence, classId)) else None
  }

  /** A row is kept exactly when one of its class scores passes the
      threshold; what is kept is the first best class, its score and the
      row's box. */
  lemma DecodeRowKeeps(row: Row, width: nat, height: nat)
    requires HasScores(row)
    ensures DecodeRow(row, width, height).Some? <==> exists j :: ScoresStart <= j < |row| && row[j] > Threshold
    ensures DecodeRow(row, width, height).Some? ==>
      var c := DecodeRow(row, width, height).value;
      && ScoresStart + c.classId < |row|
      && c.confidence == row[ScoresStart + c.classId]
      && c.confidence > Threshold
      && (forall j :: ScoresStart <= j < |row| ==> row[j] <= c.confidence)
      && (forall j :: ScoresStart <= j < ScoresStart + c.classId ==> row[j] < c.confidence)
      && c.box == RowBox(row, width, height)
  {
    var scores := row[ScoresStart..];
    ArgMaxIsFirstMax(scores);
    assert forall j :: ScoresStart <= j < |row| ==> row[j] == scores[j - ScoresStart];
  }

  /** The rows of all output layers, layer after layer, each in its own order. */
  function Flatten(layers: seq<seq<Row>>): (rows: seq<Row>)
    ensures forall l, row :: 0 <= l < |layers| && row in layers[l] ==> row in rows
    decreases |layers|
  {
    if layers == [] then [] else Flatten(layers[..|layers| - 1]) + layers[|layers| - 1]
  }

  lemma {:induction false} FlattenAppend(a: seq<seq<Row>>, b: seq<seq<Row>>)
    ensures Flatten(a + b) == Flatten(a) + Flatten(b)
    decreases |b|
  {
    if b == [] {
      assert a + b == a;
    } else {
      var init := b[..|b| - 1];
      assert (a + b)[..|a + b| - 1] == a + init;
      FlattenAppend(a, init);
    }
  }

  /** The decoding loop after the first `n` rows: the candidates appended to
      the lists, and whether the loop got that far or `np.argmax` raised. */
  function Decode(rows: seq<Row>, n: nat, width: nat, height: nat): (r: Outcome<Candidate>)
    requires n <= |rows|
    ensures |r.out| <= n
    ensures forall k :: 0 <= k < |r.out| ==> r.out[k].confidence > Threshold
    decreases n
  {
    if n == 0 then Completed([])
    else
      var prev := Decode(rows, n - 1, width, height);
      var row := rows[n - 1];
      if prev.Raised? then prev
      else if !HasScores(row) then Raised(prev.out, EmptyScores)
      else Completed(prev.out + KeptOf(row, width, height))
  }

  /** Row `n` through the decoding loop, after the rows before it. */
  lemma DecodeNext(rows: seq<Row>, n: nat, width: nat, height: nat)
    requires n < |rows|
    requires Decode(rows, n, width, height).Completed?
    ensures Decode(rows, n + 1, width, height)
            == if HasScores(rows[n]) then Completed(Decode(rows, n, width, height).out + KeptOf(rows[n], width, height))
               else Raised(Decode(rows, n, width, height).out, EmptyScores)
  {
  }

  /** Decoding the first `n` rows depends on those rows only. */
  lemma {:induction false} DecodePrefix(rows: seq<Row>, more: seq<Row>, n: nat, width: nat, height: nat)
    requires n <= |rows|
    ensures Decode(rows + more, n, width, height) == Decode(rows, n, width, height)
    decreases n
  {
    if n > 0 {
      DecodePrefix(rows, more, n - 1, width, height);
      assert (rows + more)[n - 1] == rows[n - 1];
    }
  }

  /** Once the loop has raised, later rows change nothing. */
  lemma {:induction false} DecodeRaisedIsFinal(rows: seq<Row>, m: nat, n: nat, width: nat, height: nat)
    requires m <= n <= |rows|
    requires Decode(rows, m, width, height).Raised?
    ensures Decode(rows, n, width, height) == Decode(rows, m, width, height)
    decreases n
  {
    if m < n {
      DecodeRaisedIsFinal(rows, m, n - 1, width, height);
    }
  }

  /** The rows of the first `i + 1` layers. */
  lemma FlattenPrefix(layers: seq<seq<Row>>, i: nat)
    requires i < |layers|
    ensures Flatten(layers[..i + 1]) == Flatten(layers[..i]) + layers[i]
  {
    assert layers[..i + 1][..i] == layers[..i];
  }

  lemma ProjectionsSnoc(cands: seq<Candidate>, c: Candidate)
    ensures BoxesOf(cands + [c]) == BoxesOf(cands) + [c.box]
    ensures ConfidencesOf(cands + [c]) == ConfidencesOf(cands) + [c.confidence]
    ensures ClassIdsOf(cands + [c]) == ClassIdsOf(cands) + [c.classId]
  {
  }

  /** The index of the first row without class scores, or the number of rows. */
  function FirstMalformed(rows: seq<Row>): (n: nat)
    ensures n <= |rows|
    ensures forall i :: 0 <= i < n ==> HasScores(rows[i])
    ensures n < |rows| ==> !HasScores(rows[n])
  {
    if rows == [] then 0
    else if !HasScores(rows[0]) then 0
    else 1 + FirstMalformed(rows[1..])
  }

  /** What one row contributes to the candidate lists. */
  function KeptOf(row: Row, width: nat, height: nat): seq<Candidate>
    requires HasScores(row)
  {
    match DecodeRow(row, width, height)
    case Some(c) => [c]
    case None => []
  }

  /** Reference definition: the decoded rows that pass the threshold, in row order. */
  function Kept(rows: seq<Row>, width: nat, height: nat): seq<Candidate>
    requires forall i :: 0 <= i < |rows| ==> HasScores(rows[i])
  {
    if rows == [] then [] else KeptOf(rows[0], width, height) + Kept(rows[1..], width, height)
  }

  lemma {:induction false} KeptSnoc(rows: seq<Row>, row: Row, width: nat, height: nat)
    requires forall i :: 0 <= i < |rows| ==> HasScores(rows[i])
    requires HasScores(row)
    ensures Kept(rows + [row], width, height) == Kept(rows, width, height) + KeptOf(row, width, height)
  {
    if rows == [] {
      assert [row][1..] == [];
    } else {
      assert (rows + [row])[1..] == rows[1..] + [row];
      KeptSnoc(rows[1..], row, width, height);
    }
  }

  /** Up to the first row without class scores, the decoding loop keeps
      exactly what the reference filter keeps. */
  lemma {:induction false} DecodeKeepsPrefix(rows: seq<Row>, n: nat, width: nat, height: nat)
    requires n <= FirstMalformed(rows)
    ensures Decode(rows, n, width, height) == Completed(Kept(rows[..n], width, height))
    decreases n
  {
    if n == 0 {
      assert rows[..0] == [];
    } else {
      DecodeKeepsPrefix(rows, n - 1, width, height);
      assert rows[..n] == rows[..n - 1] + [rows[n - 1]];
      KeptSnoc(rows[..n - 1], rows[n - 1], width, height);
    }
  }

  /** The decoding loop keeps, in order, exactly the rows whose best class
      score passes the threshold, up to the first row without class scores;
      it raises there and only there. */
  lemma DecodeIsKept(rows: seq<Row>, width: nat, height: nat)
    ensures var r, m := Decode(rows, |rows|, width, height), FirstMalformed(rows);
            && (r.Completed? <==> m == |rows|)
            && r.out == Kept(rows[..m], width, height)
            && (r.Raised? ==> r.fault == EmptyScores)
  {
    var m := FirstMalformed(rows);
    DecodeKeepsPrefix(rows, m, width, height);
    if m < |rows| {
      assert Decode(rows, m + 1, width, height) == Raised(Kept(rows[..m], width, height), EmptyScores);
      DecodeRaisedIsFinal(rows, m + 1, |rows|, width, height);
    }
  }

  /** A layer whose decoding raises decides the outcome of all the layers. */
  lemma DecodeRaisedThrough(layers: seq<seq<Row>>, i: nat, width: nat, height: nat)
    requires i < |layers|
    requires var seen := Flatten(layers[..i + 1]); Decode(seen, |seen|, width, height).Raised?
    ensures var seen, all := Flatten(layers[..i + 1]), Flatten(layers);
            |seen| <= |all| && Decode(all, |all|, width, height) == Decode(seen, |seen|, width, height)
  {
    var seen, rest := Flatten(layers[..i + 1]), Flatten(layers[i + 1..]);
    assert layers == layers[..i + 1] + layers[i + 1..];
    FlattenAppend(layers[..i + 1], layers[i + 1..]);
    DecodePrefix(seen, rest, |seen|, width, height);
    DecodeRaisedIsFinal(seen + rest, |seen|, |seen + rest|, width, height);
  }

  /** Every kept candidate is what some input row decodes to, and every row
      that decodes to a candidate contributes it. */
  lemma {:induction false} KeptComesFromRows(rows: seq<Row>, width: nat, height: nat, c: Candidate)
    requires forall i :: 0 <= i < |rows| ==> HasScores(rows[i])
    ensures c in Kept(rows, width, height) <==>
            exists i :: 0 <= i < |rows| && DecodeRow(rows[i], width, height) == Some(c)
    decreases |rows|
  {
    if rows != [] {
      KeptComesFromRows(rows[1..], width, height, c);
      if c in Kept(rows[1..], width, height) {
        var i :| 0 <= i < |rows[1..]| && DecodeRow(rows[1..][i], width, height) == Some(c);
        assert DecodeRow(rows[i + 1], width, height) == Some(c);
      }
      if exists i :: 0 <= i < |rows| && DecodeRow(rows[i], width, height) == Some(c) {
        var i :| 0 <= i < |rows| && DecodeRow(rows[i], width, height) == Some(c);
        if i > 0 {
          assert DecodeRow(rows[1..][i - 1], width, height) == Some(c);
        }
      }
    }
  }
}

=== FILE: geometry.dfy ===
/** Pixel arithmetic of the detector: Python's `int()` on floats and the
    conversions between a box centre, its top-left edge and its size. */
module Geometry {

  /** Python's `int(r)` on a float: truncation toward zero. */
  function Trunc(r: real): int
  {
    if r >= 0.0 then r.Floor else -((-r).Floor)
  }

  /** Trunc drops the fractional part: it moves a value down to an integer
      when it is not negative and up to one when it is. */
  lemma TruncTowardZero(r: real)
    ensures r >= 0.0 ==> Trunc(r) as real <= r < Trunc(r) as real + 1.0
    ensures r < 0.0 ==> Trunc(r) as real - 1.0 < r <= Trunc(r) as real
  {
  }

  /** A candidate box in pixels: top-left corner and size, never clipped. */
  datatype Box = Box(x: int, y: int, w: int, h: int)

  /** `norm * extent`, written as `extent` copies of `norm` added up so
      that proofs about the decoder, which never need the product, do not
      reason about products of two variables; ScaleIsProduct shows it is the
      product. */
  function Scale(norm: real, extent: nat): real
    decreases extent
  {
    if extent == 0 then 0.0 else Scale(norm, extent - 1) + norm
  }

  lemma {:induction false} ScaleIsProduct(norm: real, extent: nat)
    ensures Scale(norm, extent) == norm * extent as real
    decreases extent
  {
    if extent > 0 {
      ScaleIsProduct(norm, extent - 1);
      assert norm * extent as real == norm * (extent - 1) as real + norm;
    }
  }

  /** A normalised network coordinate scaled by an image extent: `int(d * extent)`. */
  function ToPixels(norm: real, extent: nat): int
  {
    Trunc(Scale(norm, extent))
  }

  /** A coordinate that is not negative scales to a pixel count between 0
      and its exact scaled value; one in [0, 1) lands inside the extent. */
  lemma ToPixelsBounds(norm: real, extent: nat)
    ensures 0.0 <= norm ==> 0 <= ToPixels(norm, extent) && ToPixels(norm, extent) as real <= norm * extent as real
    ensures 0.0 <= norm < 1.0 && extent > 0 ==> ToPixels(norm, extent) < extent
  {
    var scaled := norm * extent as real;
    ScaleIsProduct(norm, extent);
    TruncTowardZero(scaled);
    if 0.0 <= norm < 1.0 && extent > 0 {
      var room := 1.0 - norm;
      assert extent as real - scaled == room * extent as real;
      assert room * extent as real > 0.0;
    }
  }

  /** The top-left edge of a box from its centre and size: `int(center - size/2)`. */
  function TopLeft(center: int, size: int): int
  {
    Trunc(center as real - size as real / 2.0)
  }

  /** The centre of a box from its edge and size: `int(edge + size/2)`. */
  function CentreOf(edge: int, size: int): int
  {
    Trunc(edge as real + size as real / 2.0)
  }

  /** The top-left edge lands within one pixel of the exact value. */
  lemma TopLeftWithinOne(center: int, size: int)
    ensures -1.0 < TopLeft(center, size) as real - (center as real - size as real / 2.0) < 1.0
  {
    TruncTowardZero(center as real - size as real / 2.0);
  }

  /** The recomputed centre lands within one pixel of the exact value. */
  lemma CentreWithinOne(edge: int, size: int)
    ensures -1.0 < CentreOf(edge, size) as real - (edge as real + size as real / 2.0) < 1.0
  {
    TruncTowardZero(edge as real + size as real / 2.0);
  }

  /** Going from a centre to the top-left edge and back, as the decoder and
      the detection assembly do, gives the centre back for an even size, and
      one pixel less for an odd size unless the edge was truncated toward
      zero from below; the result never leaves [0, center]. */
  lemma CentreRoundTrip(center: int, size: int)
    requires center >= 0 && size >= 0
    ensures CentreOf(TopLeft(center, size), size)
            == if size % 2 == 1 && 2 * center > size then center - 1 else center
    ensures 0 <= CentreOf(TopLeft(center, size), size) <= center
  {
    var k := size / 2;
    if size % 2 == 0 {
      assert size as real / 2.0 == k as real;
      assert TopLeft(center, size) == center - k;
      assert CentreOf(center - k, size) == center;
    } else {
      assert size as real / 2.0 == k as real + 0.5;
      if 2 * center > size {
        assert TopLeft(center, size) == center - k - 1;
        assert CentreOf(center - k - 1, size) == center - 1;
      } else {
        assert TopLeft(center, size) == center - k;
        assert CentreOf(center - k, size) == center;
      }
    }
  }

  /** The same round trip for a negative centre: both conversions truncate
      toward zero, so an odd size gives one pixel more than the centre. */
  lemma CentreRoundTripBelowZero(center: int, size: int)
    requires center < 0 && size >= 0
    ensures CentreOf(TopLeft(center, size), size)
            == if size % 2 == 1 then center + 1 else center
  {
    var k := size / 2;
    if size % 2 == 0 {
      assert size as real / 2.0 == k as real;
      assert TopLeft(center, size) == center - k;
      assert CentreOf(center - k, size) == center;
    } else {
      assert size as real / 2.0 == k as real + 0.5;
      assert TopLeft(center, size) == center - k;
      assert CentreOf(center - k, size) == center + 1;
    }
  }
}

=== FILE: outcomes.dfy ===
/** How the recognizer's operations end. The source signals failure by letting
    a Python exception propagate; the lists it was filling keep what was
    appended before the exception. */
module Outcomes {

  datatype Option<T> = None | Some(value: T)

  /** The exceptions the modelled code can raise. */
  datatype Fault =
    | EmptyScores      // `np.argmax` of an empty `detection[5:]` (ValueError)
    | IndexOutOfRange  // `self.boxes[i]` or `self.classes[class_id]` (IndexError)
    | NoFrame          // `cap.read()` gave no frame and `None.shape` was read (AttributeError)

  /** A list built by appending, and whether building it ran to the end. */
  datatype Outcome<T> =
    | Completed(out: seq<T>)
    | Raised(out: seq<T>, fault: Fault)

  datatype Result<T> = Ok(value: T) | Err(fault: Fault)

  /** Whether a method returned normally or let an exception out. */
  datatype Status = Returned | Threw(fault: Fault)
}

=== FILE: recognizer.dfy ===
/** The object recognizer: the state it keeps between calls (the candidate
    lists, the detections, the capture and writer handles) and the methods
    that update it frame by frame. */
module Recognizer {
  import opened Outcomes
  import opened Geometry
  import opened Decoder
  import opened Assembly
  import opened Video

  /** The output frame rate of the video writer. */
  const Fps: nat := 5

  /** The four-character codec tag of the video writer. */
  const Codec: string := "mp4v"

  /** A capture handle (`cv2.VideoCapture`) over the frames its file or
      device yields. */
  class Capture {
    const frames: seq<Image>
    const frameWidth: real   // CAP_PROP_FRAME_WIDTH
    const frameHeight: real  // CAP_PROP_FRAME_HEIGHT
    var pos: nat
    var releases: nat

    constructor (frames: seq<Image>, frameWidth: real, frameHeight: real)
      ensures this.frames == frames && this.frameWidth == frameWidth && this.frameHeight == frameHeight
      ensures pos == 0 && releases == 0
    {
      this.frames, this.frameWidth, this.frameHeight := frames, frameWidth, frameHeight;
      pos, releases := 0, 0;
    }

    /** The frames later reads still yield; none once the handle is released. */
    function Remaining(): seq<Image>
      reads this
    {
      if releases == 0 && pos < |frames| then frames[pos..] else []
    }

    /** The frame the next read yields, if any. */
    function Next(): Option<Image>
      reads this
    {
      if releases == 0 && pos < |frames| then Some(frames[pos]) else None
    }

    /** `cap.read()`: the next frame, or no frame once the source is
        exhausted; a read that yields a frame moves past it. */
    method Read() returns (frame: Option<Image>)
      modifies this`pos
      ensures frame == old(Next())
      ensures pos == if frame.Some? then old(pos) + 1 else old(pos)
    {
      if releases == 0 && pos < |frames| {
        frame := Some(frames[pos]);
        pos := pos + 1;
      } else {
        frame := None;
      }
    }

    method Release()
      modifies this`releases
      ensures releases == old(releases) + 1
    {
      releases := releases + 1;
    }
  }

  /** A video writer handle (`cv2.VideoWriter`). */
  class Writer {
    const path: string
    const codec: string
    const fps: nat
    const width: int
    const height: int
    var written: seq<Image>
    var releases: nat

    constructor (path: string, codec: string, fps: nat, width: int, height: int)
      ensures this.path == path && this.codec == codec && this.fps == fps
      ensures this.width == width && this.height == height
      ensures written == [] && releases == 0
    {
      this.path, this.codec, this.fps, this.width, this.height := path, codec, fps, width, height;
      written, releases := [], 0;
    }

    /** `out.write(frame)`; a released writer drops the frame. */
    method Write(img: Image)
      modifies this`written
      ensures written == if releases == 0 then old(written) + [img] else old(written)
    {
      if releases == 0 {
        written := written + [img];
      }
    }

    method Release()
      modifies this`releases
      ensures releases == old(releases) + 1
    {
      releases := releases + 1;
    }
  }

  class ObjectRecognizer {
    const classes: seq<string>
    const net: Network
    const nms: Suppressor
    const write: bool
    const artifactsDir: string
    /** The per-frame pipeline (decode, suppress, assemble) as one function
        of the frame, the handler the video loop's specification takes.
        Wired() is all that is known of it: FrameDetections frame by frame. */
    ghost const detect: Image -> Result<seq<Detection>>

    var img: Option<Image>
    var height: nat
    var width: nat
    var boxes: seq<Box>
    var confidences: seq<real>
    var classIds: seq<nat>
    var detections: seq<Detection>
    var cap: Capture?
    var out: Writer?

    /** The three candidate lists are parallel, and a recognizer that does
        not write never holds a video writer. */
    ghost predicate Valid()
      reads this
    {
      && |boxes| == |confidences| == |classIds|
      && (!write ==> out == null)
    }

    /** `detect` is the pipeline built from the label list, the network and
        the suppressor, frame by frame. */
    ghost predicate Wired()
    {
      forall img: Image {:trigger FrameDetections(img, classes, net, nms)} ::
        FrameOutcome(detect, img) == FrameDetections(img, classes, net, nms)
    }

    /** The candidates the three parallel lists hold, entry by entry. */
    ghost function Candidates(): seq<Candidate>
      reads this
      requires Valid()
    {
      var bs, cs, ids := boxes, confidences, classIds;
      seq(|bs|, k requires 0 <= k < |bs| => Candidate(bs[k], cs[k], ids[k]))
    }

    /** Loads nothing itself: the label list, the network and the suppressor
        are what the source reads from its configuration directory. */
    constructor (classes: seq<string>, net: Network, nms: Suppressor, write: bool, artifactsDir: string)
      ensures this.classes == classes && this.net == net && this.nms == nms
      ensures this.write == write && this.artifactsDir == artifactsDir
      ensures Wired()
      ensures Valid() && boxes == [] && detections == [] && img == None
      ensures cap == null && out == null
    {
      this.classes, this.net, this.nms := classes, net, nms;
      this.write, this.artifactsDir := write, artifactsDir;
      detect := img => FrameDetections(img, classes, net, nms);
      img, height, width := None, 0, 0;
      boxes, confidences, classIds, detections := [], [], [], [];
      cap, out := null, null;
    }

    /** `__get_recognition_details`: the candidate lists decoded from the
        layer outputs become the recognizer's lists, including what was
        appended before an exception. */
    method GetRecognitionDetails(layerOutputs: seq<seq<Row>>) returns (status: Status)
      requires Valid()
      modifies this`boxes, this`confidences, this`classIds
      ensures Valid()
      ensures var rows := Flatten(layerOutputs);
              var d := Decode(rows, |rows|, width, height);
              && boxes == BoxesOf(d.out)
              && confidences == ConfidencesOf(d.out)
              && classIds == ClassIdsOf(d.out)
              && status == if d.Raised? then Threw(d.fault) else Returned
    {
      boxes, confidences, classIds, status := DecodeLayers(layerOutputs, width, height);
    }

    /** Builds one detection record per index surviving suppression, in the
        order of the indexes; none when nothing survives. */
    method ShowImageWithBoxes() returns (status: Status)
      requires Valid()
      modifies this`detections
      ensures var a := Assemble(nms(boxes, confidences), Candidates(), classes);
              && detections == a.out
              && status == if a.Raised? then Threw(a.fault) else Returned
    {
      var indexes := nms(boxes, confidences);
      detections := [];
      if |indexes| == 0 {
        return Returned;
      }
      ghost var cands := Candidates();
      var k := 0;
      while k < |indexes|
        invariant 0 <= k <= |indexes|
        invariant Assemble(indexes[..k], cands, classes) == Completed(detections)
      {
        var i := indexes[k];
        assert indexes[..k + 1][..k] == indexes[..k] && indexes[..k + 1][k] == i;
        if i >= |boxes| || classIds[i] >= |classes| {
          // self.boxes[i] or self.classes[self.class_ids[i]] raises
          status := Threw(IndexOutOfRange);
          AssembleRaised(indexes, k, cands, classes);
          return;
        }
        var b := boxes[i];
        var className := classes[classIds[i]];
        var confidence := confidences[i];
        detections := detections + [Detection(className, confidence, CentreOf(b.x, b.w), CentreOf(b.y, b.h))];
        k := k + 1;
      }
      assert indexes[..|indexes|] == indexes;
      status := Returned;
    }

    /** Runs decoding and assembly on the current image; a missing image
        raises on reading its shape. */
    method ImageHandler() returns (status: Status)
      requires Valid()
      modifies this`height, this`width, this`boxes, this`confidences, this`classIds, this`detections
      ensures Valid()
      ensures old(img).None? ==>
        && status == Threw(NoFrame) && detections == old(detections)
        && boxes == old(boxes) && confidences == old(confidences) && classIds == old(classIds)
        && height == old(height) && width == old(width)
      ensures old(img).Some? ==>
        var im := old(img).value;
        var rows := Flatten(net(im));
        var d := Decode(rows, |rows|, im.width, im.height);
        && height == im.height && width == im.width
        && boxes == BoxesOf(d.out) && confidences == ConfidencesOf(d.out) && classIds == ClassIdsOf(d.out)
        && (d.Raised? ==> detections == old(detections))
        && (d.Completed? ==> detections == Assemble(nms(BoxesOf(d.out), ConfidencesOf(d.out)), d.out, classes).out)
        && (status.Returned? <==> FrameDetections(im, classes, net, nms).Ok?)
        && (status.Threw? ==> FrameDetections(im, classes, net, nms) == Err(status.fault))
        && (status.Returned? ==> detections == FrameDetections(im, classes, net, nms).value)
    {
      if img.None? {
        return Threw(NoFrame);
      }
      var im := img.value;
      height, width := im.height, im.width;
      var layerOutputs := net(im);
      status := GetRecognitionDetails(layerOutputs);
      if status.Threw? {
        return;
      }
      ghost var rows := Flatten(layerOutputs);
      ghost var d := Decode(rows, |rows|, width, height);
      assert Candidates() == d.out;
      status := ShowImageWithBoxes();
    }

    /** Reads the next frame, runs the detector on it and, when writing,
        appends it to the output video. */
    method HandleFrame() returns (status: Status)
      requires Valid() && cap != null && (write ==> out != null)
      modifies this, cap, out
      ensures cap == old(cap) && out == old(out) && Valid()
      ensures cap.releases == old(cap.releases)
      ensures img == old(cap.Next())
      ensures cap.pos == if old(cap.Next()).Some? then old(cap.pos) + 1 else old(cap.pos)
      ensures old(cap.Next()).None? ==>
        && status == Threw(NoFrame) && detections == old(detections)
        && boxes == old(boxes) && confidences == old(confidences) && classIds == old(classIds)
        && height == old(height) && width == old(width)
      ensures old(cap.Next()).Some? ==>
        var im := old(cap.Next()).value;
        var rows := Flatten(net(im));
        var d := Decode(rows, |rows|, im.width, im.height);
        && height == im.height && width == im.width
        && boxes == BoxesOf(d.out) && confidences == ConfidencesOf(d.out) && classIds == ClassIdsOf(d.out)
        && (d.Raised? ==> detections == old(detections))
        && (d.Completed? ==> detections == Assemble(nms(BoxesOf(d.out), ConfidencesOf(d.out)), d.out, classes).out)
      ensures old(cap.Next()).Some? ==>
        var r := FrameDetections(old(cap.Next()).value, classes, net, nms);
        && (status.Returned? <==> r.Ok?)
        && (status.Threw? ==> r == Err(status.fault))
        && (status.Returned? ==> detections == r.value)
      ensures out != null ==> out.releases == old(out.releases)
      ensures write && status.Returned? && out.releases == 0 ==>
                out.written == old(out.written) + [old(cap.Next()).value]
      ensures write && status.Threw? ==> out.written == old(out.written)
    {
      var frame := cap.Read();
      img := frame;
      status := ImageHandler();
      if status.Threw? {
        return;
      }
      if write {
        out.Write(img.value);
      }
    }

    /** Opens the output video, sized like the capture's frames. */
    method SetupVideoCapture(name: string)
      requires cap != null
      modifies this`out
      ensures out != null && fresh(out)
      ensures out.path == artifactsDir + "/DETECTED_" + name
      ensures out.codec == Codec && out.fps == Fps
      ensures out.width == Trunc(cap.frameWidth + 0.5) && out.height == Trunc(cap.frameHeight + 0.5)
      ensures out.written == [] && out.releases == 0
    {
      var w := Trunc(cap.frameWidth + 0.5);
      var h := Trunc(cap.frameHeight + 0.5);
      out := new Writer(artifactsDir + "/DETECTED_" + name, Codec, Fps, w, h);
    }

    /** Releases the handles that are open and forgets both. */
    method TeardownVideoCapture()
      modifies this`cap, this`out, cap, out
      ensures cap == null && out == null
      ensures old(out) != null ==>
                old(out).releases == old(out.releases) + 1 && old(out).written == old(out.written)
      ensures old(cap) != null ==>
                old(cap).releases == old(cap.releases) + 1 && old(cap).pos == old(cap.pos)
    {
      if out != null {
        out.Release();
      }
      if cap != null {
        cap.Release();
      }
      cap := null;
      out := null;
    }

    /** One pass of the video loop's body for frame number `ind`: the frame
        is read and handled, and its detections tagged with `ind` are
        appended to the frame data; an exception ends the whole loop. */
    method HandleNumberedFrame(ind: nat, frameData: seq<FrameDetection>, ghost frames: seq<Image>)
      returns (status: Status, frameData': seq<FrameDetection>)
      requires Valid() && Wired() && cap != null && (write ==> out != null)
      requires 0 < ind <= FrameCap && ind - 1 <= |frames|
      requires cap.Next() == if ind - 1 < |frames| then Some(frames[ind - 1]) else None
      requires VideoRun(frames, ind - 1, detect) == Ok(frameData)
      modifies this, cap, out
      ensures Valid() && cap == old(cap) && out == old(out) && cap.releases == old(cap.releases)
      ensures out != null ==> out.releases == old(out.releases)
      ensures status.Threw? ==> VideoRun(frames, FrameCap, detect) == Err(status.fault)
      ensures status.Returned? ==>
                ind <= |frames| && cap.pos == old(cap.pos) + 1
                && VideoRun(frames, ind, detect) == Ok(frameData')
      ensures write && status.Returned? && out.releases == 0 ==>
                out.written == old(out.written) + [frames[ind - 1]]
    {
      frameData' := frameData;
      status := HandleFrame();
      if status.Threw? {
        VideoRunStops(frames, ind, FrameCap, detect);
        return;
      }
      VideoRunAdvance(frames, ind, detect, frameData, detections);
      frameData' := AppendTagged(frameData, detections, ind);
    }

    /** The video loop as written: frames 1 to 20 are handled whatever the
        source holds, each frame's detections are tagged with its number and
        appended, and the handles are released only when all 20 succeed. */
    method DetectObjectsInVideo(capture: Capture, name: string) returns (r: Result<seq<FrameDetection>>, ghost writer: Writer?)
      requires Valid() && Wired()
      modifies this, capture
      ensures Valid()
      ensures r == VideoRun(old(capture.Remaining()), FrameCap, detect)
      ensures r.Ok? ==> cap == null && out == null
      ensures r.Ok? ==> capture.releases == old(capture.releases) + 1 && capture.pos == old(capture.pos) + FrameCap
      ensures r.Err? ==> cap == capture && capture.releases == old(capture.releases)
      ensures write <==> writer != null
      ensures writer != null ==> fresh(writer) && writer.path == artifactsDir + "/DETECTED_" + name
      ensures writer != null && r.Ok? ==>
                writer.releases == 1 && writer.written == old(capture.Remaining())[..FrameCap]
      ensures writer != null && r.Err? ==> out == writer && writer.releases == 0
    {
      ghost var frames := capture.Remaining();
      ghost var start := capture.pos;
      ghost var released := capture.releases != 0;
      cap := capture;
      writer := null;
      if write {
        SetupVideoCapture(name);
        writer := out;
      }
      var ind := 0;
      var frameData: seq<FrameDetection> := [];
      while true
        invariant 0 <= ind <= FrameCap && ind <= |frames|
        invariant Valid() && cap == capture && out == writer && (write <==> writer != null)
        invariant writer != null ==>
                    fresh(writer) && writer.releases == 0 && writer.written == frames[..ind]
                    && writer.path == artifactsDir + "/DETECTED_" + name
        invariant capture.pos == start + ind
        invariant capture.releases == old(capture.releases)
        invariant VideoRun(frames, ind, detect) == Ok(frameData)
        decreases FrameCap - ind
      {
        ind := ind + 1;
        if ind > FrameCap {
          break;
        }
        var status;
        NextFrame(capture.frames, released, start, ind - 1, frames);
        status, frameData := HandleNumberedFrame(ind, frameData, frames);
        if status.Threw? {
          return Err(status.fault), writer;
        }
        TakeOneMore(frames, ind - 1);
      }
      TeardownVideoCapture();
      r := Ok(frameData);
    }

    /** The loop body with the result of the read checked: a read that
        gives no frame ends the loop instead of raising. */
    method HandleNumberedFrameChecked(ind: nat, frameData: seq<FrameDetection>, ghost frames: seq<Image>)
      returns (status: Status, more: bool, frameData': seq<FrameDetection>)
      requires Valid() && Wired() && cap != null && (write ==> out != null)
      requires 0 < ind <= FrameCap && ind - 1 <= |frames|
      requires cap.Next() == if ind - 1 < |frames| then Some(frames[ind - 1]) else None
      requires VideoRun(frames, ind - 1, detect) == Ok(frameData)
      modifies this, cap, out
      ensures Valid() && cap == old(cap) && out == old(out) && cap.releases == old(cap.releases)
      ensures out != null ==> out.releases == old(out.releases)
      ensures !more ==>
                status == Returned && ind - 1 == |frames| && cap.pos == old(cap.pos) && frameData' == frameData
                && (out != null ==> out.written == old(out.written))
      ensures more && status.Threw? ==>
                VideoRun(frames, FramesHandled(frames), detect) == Err(status.fault)
      ensures more && status.Returned? ==>
                ind <= |frames| && cap.pos == old(cap.pos) + 1
                && VideoRun(frames, ind, detect) == Ok(frameData')
      ensures write && more && status.Returned? && out.releases == 0 ==>
                out.written == old(out.written) + [frames[ind - 1]]
    {
      frameData' := frameData;
      var frame := cap.Read();
      if frame.None? {
        return Returned, false, frameData;
      }
      more := true;
      img := frame;
      status := ImageHandler();
      if status.Threw? {
        VideoRunStops(frames, ind, FramesHandled(frames), detect);
        return;
      }
      if write {
        out.Write(img.value);
      }
      VideoRunAdvance(frames, ind, detect, frameData, detections);
      frameData' := AppendTagged(frameData, detections, ind);
    }

    /** The video loop as evidently intended: the loop ends at the end of
        the source as well as after 20 frames, and the handles are released
        however the loop ends. */
    method DetectObjectsInVideoChecked(capture: Capture, name: string)
      returns (r: Result<seq<FrameDetection>>, ghost writer: Writer?)
      requires Valid() && Wired()
      modifies this, capture
      ensures Valid()
      ensures var frames := old(capture.Remaining());
              r == VideoRun(frames, FramesHandled(frames), detect)
      ensures cap == null && out == null
      ensures capture.releases == old(capture.releases) + 1
      ensures r.Ok? ==> capture.pos == old(capture.pos) + FramesHandled(old(capture.Remaining()))
      ensures write <==> writer != null
      ensures writer != null ==>
                fresh(writer) && writer.path == artifactsDir + "/DETECTED_" + name && writer.releases == 1
      ensures writer != null && r.Ok? ==>
                writer.written == old(capture.Remaining())[..FramesHandled(old(capture.Remaining()))]
    {
      ghost var frames := capture.Remaining();
      ghost var start := capture.pos;
      ghost var released := capture.releases != 0;
      cap := capture;
      writer := null;
      if write {
        SetupVideoCapture(name);
        writer := out;
      }
      var ind := 0;
      var frameData: seq<FrameDetection> := [];
      while true
        invariant 0 <= ind <= FrameCap && ind <= |frames|
        invariant Valid() && cap == capture && out == writer && (write <==> writer != null)
        invariant writer != null ==>
                    fresh(writer) && writer.releases == 0 && writer.written == frames[..ind]
                    && writer.path == artifactsDir + "/DETECTED_" + name
        invariant capture.pos == start + ind
        invariant capture.releases == old(capture.releases)
        invariant VideoRun(frames, ind, detect) == Ok(frameData)
        decreases FrameCap - ind
      {
        ind := ind + 1;
        if ind > FrameCap {
          assert ind - 1 == FramesHandled(frames);
          break;
        }
        var status, more;
        NextFrame(capture.frames, released, start, ind - 1, frames);
        status, more, frameData := HandleNumberedFrameChecked(ind, frameData, frames);
        if !more {
          ind := ind - 1;
          assert ind == FramesHandled(frames);
          break;
        }
        if status.Threw? {
          TeardownVideoCapture();
          return Err(status.fault), writer;
        }
        TakeOneMore(frames, ind - 1);
      }
      TeardownVideoCapture();
      r := Ok(frameData);
    }
  }

  /** Once `k` frames have been read from a source that held `frames` from
      position `start` on, the next read yields frame `k` of them, if there
      is one. */
  lemma NextFrame(source: seq<Image>, released: bool, start: nat, k: nat, frames: seq<Image>)
    requires frames == if !released && start < |source| then source[start..] else []
    requires k <= |frames|
    ensures (if !released && start + k < |source| then Some(source[start + k]) else None)
            == (if k < |frames| then Some(frames[k]) else None)
  {
  }

  lemma TakeOneMore<T>(s: seq<T>, i: nat)
    requires i < |s|
    ensures s[..i + 1] == s[..i] + [s[i]]
  {
  }

  /** The outer decoding loop, over the output layers: the three lists
      grow layer by layer, and the first row without class scores ends the
      loop with an exception and the lists as they are. */
  method DecodeLayers(layerOutputs: seq<seq<Row>>, width: nat, height: nat)
    returns (boxes: seq<Box>, confidences: seq<real>, classIds: seq<nat>, status: Status)
    ensures var rows := Flatten(layerOutputs);
            var d := Decode(rows, |rows|, width, height);
            && boxes == BoxesOf(d.out)
            && confidences == ConfidencesOf(d.out)
            && classIds == ClassIdsOf(d.out)
            && status == if d.Raised? then Threw(d.fault) else Returned
  {
    boxes, confidences, classIds := [], [], [];
    ghost var done: seq<Row> := [];
    ghost var kept: seq<Candidate> := [];
    var i := 0;
    while i < |layerOutputs|
      invariant 0 <= i <= |layerOutputs|
      invariant done == Flatten(layerOutputs[..i])
      invariant Decode(done, |done|, width, height) == Completed(kept)
      invariant boxes == BoxesOf(kept) && confidences == ConfidencesOf(kept) && classIds == ClassIdsOf(kept)
    {
      boxes, confidences, classIds, status :=
        DecodeLayer(layerOutputs[i], width, height, boxes, confidences, classIds, done, kept);
      FlattenPrefix(layerOutputs, i);
      kept := Decode(done + layerOutputs[i], |done + layerOutputs[i]|, width, height).out;
      if status.Threw? {
        DecodeRaisedThrough(layerOutputs, i, width, height);
        return;
      }
      done := done + layerOutputs[i];
      i := i + 1;
    }
    assert layerOutputs[..|layerOutputs|] == layerOutputs;
    status := Returned;
  }

  /** The inner decoding loop, over the rows of one output layer, appending
      to the lists `boxes0`, `confidences0` and `classIds0` that the rows
      `done` of the earlier layers produced. */
  method DecodeLayer(output: seq<Row>, width: nat, height: nat,
                     boxes0: seq<Box>, confidences0: seq<real>, classIds0: seq<nat>,
                     ghost done: seq<Row>, ghost kept0: seq<Candidate>)
    returns (boxes: seq<Box>, confidences: seq<real>, classIds: seq<nat>, status: Status)
    requires Decode(done, |done|, width, height) == Completed(kept0)
    requires boxes0 == BoxesOf(kept0) && confidences0 == ConfidencesOf(kept0) && classIds0 == ClassIdsOf(kept0)
    ensures var all := done + output;
            var d := Decode(all, |all|, width, height);
            && boxes == BoxesOf(d.out) && confidences == ConfidencesOf(d.out) && classIds == ClassIdsOf(d.out)
            && status == if d.Raised? then Threw(d.fault) else Returned
  {
    boxes, confidences, classIds := boxes0, confidences0, classIds0;
    ghost var all := done + output;
    ghost var pos := |done|;
    DecodePrefix(done, output, pos, width, height);
    ghost var kept := kept0;
    var j := 0;
    while j < |output|
      invariant 0 <= j <= |output| && pos == |done| + j
      invariant Decode(all, pos, width, height) == Completed(kept)
      invariant boxes == BoxesOf(kept) && confidences == ConfidencesOf(kept) && classIds == ClassIdsOf(kept)
    {
      var detection := output[j];
      assert all[pos] == detection;
      DecodeNext(all, pos, width, height);
      if |detection| <= ScoresStart {
        // np.argmax of an empty score list raises
        status := Threw(EmptyScores);
        DecodeRaisedIsFinal(all, pos + 1, |all|, width, height);
        return;
      }
      var scores := detection[ScoresStart..];
      var classId := ArgMax(scores);
      var confidence := scores[classId];
      if confidence > Threshold {
        var box := RowBox(detection, width, height);
        boxes := boxes + [box];
        confidences := confidences + [confidence];
        classIds := classIds + [classId];
        ghost var c := Candidate(box, confidence, classId);
        assert KeptOf(detection, width, height) == [c];
        ProjectionsSnoc(kept, c);
        kept := kept + [c];
      } else {
        assert KeptOf(detection, width, height) == [];
      }
      j := j + 1;
      pos := pos + 1;
    }
    assert pos == |all|;
    status := Returned;
  }

  /** The inner loop of the video loop: each detection of frame `ind`,
      tagged with the frame number, appended in order. */
  method AppendTagged(frameData: seq<FrameDetection>, dets: seq<Detection>, ind: nat)
    returns (r: seq<FrameDetection>)
    ensures r == frameData + Tagged(dets, ind)
  {
    r := frameData;
    var k := 0;
    while k < |dets|
      invariant 0 <= k <= |dets|
      invariant r == frameData + Tagged(dets[..k], ind)
    {
      r := r + [FrameDetection(dets[k], ind)];
      k := k + 1;
      assert Tagged(dets[..k], ind) == Tagged(dets[..k - 1], ind) + [FrameDetection(dets[k - 1], ind)];
    }
    assert dets[..|dets|] == dets;
  }

  /** An index that cannot be looked up ends assembly there, with the
      records before it already built. */
  lemma AssembleRaised(indexes: seq<nat>, k: nat, cands: seq<Candidate>, classes: seq<string>)
    requires k < |indexes|
    requires Assemble(indexes[..k], cands, classes).Completed?
    requires !Resolvable(indexes[k], cands, classes)
    ensures Assemble(indexes, cands, classes)
            == Raised(Assemble(indexes[..k], cands, classes).out, IndexOutOfRange)
  {
    var prefix := Assemble(indexes[..k], cands, classes).out;
    var r := Assemble(indexes, cands, classes);
    AssembleRecords(indexes, cands, classes);
    AssembleRecords(indexes[..k], cands, classes);
    assert forall j :: 0 <= j < k ==> indexes[..k][j] == indexes[j];
    assert |r.out| == k;
    assert r.out == prefix;
  }
}

=== FILE: video.dfy ===
/** What one frame yields through decode, suppression and assembly, and what
    the video loop accumulates over the frames it handles. */
module Video {
  import opened Outcomes
  import opened Geometry
  import opened Decoder
  import opened Assembly

  /** A decoded image or video frame; only its dimensions matter here. */
  datatype Image = Image(height: nat, width: nat, pixels: seq<int>)

  /** The network's forward pass on a frame (blob, setInput, forward): one
      list of rows per unconnected output layer. */
  type Network = Image -> seq<seq<Row>>

  /** `cv2.dnn.NMSBoxes(boxes, confidences, 0.5, 0.4)`: the surviving indexes. */
  type Suppressor = (seq<Box>, seq<real>) -> seq<nat>

  /** The number of frames the video loop handles. */
  const FrameCap: nat := 20

  /** The detections of one frame, or the exception handling it raises. */
  function FrameDetections(img: Image, classes: seq<string>, net: Network, nms: Suppressor): Result<seq<Detection>>
  {
    var rows := Flatten(net(img));
    var d := Decode(rows, |rows|, img.width, img.height);
    if d.Raised? then Err(d.fault)
    else
      var a := Assemble(nms(BoxesOf(d.out), ConfidencesOf(d.out)), d.out, classes);
      if a.Raised? then Err(a.fault) else Ok(a.out)
  }

  /** What handling one frame gives. The video loop's specification applies
      its handler only through this function, so that unfolding the loop does
      not unfold the whole pipeline of every frame. */
  function FrameOutcome(handle: Image -> Result<seq<Detection>>, img: Image): Result<seq<Detection>>
  {
    handle(img)
  }

  /** A detection with the 1-based number of the frame it was found in. */
  datatype FrameDetection = FrameDetection(detection: Detection, frame: nat)

  /** Each detection of one frame with the frame's number. */
  function Tagged(dets: seq<Detection>, ind: nat): seq<FrameDetection>
  {
    seq(|dets|, k requires 0 <= k < |dets| => FrameDetection(dets[k], ind))
  }

  /** The accumulated frame data after the loop has handled frames 1 to `n`
      of `frames`: each frame's detections tagged with its number, appended
      in frame order. Reading past the last frame raises NoFrame. */
  function VideoRun(frames: seq<Image>, n: nat, handle: Image -> Result<seq<Detection>>)
    : Result<seq<FrameDetection>>
    decreases n
  {
    if n == 0 then Ok([])
    else match VideoRun(frames, n - 1, handle) {
      case Err(f) => Err(f)
      case Ok(acc) =>
        if n - 1 >= |frames| then Err(NoFrame)
        else match FrameOutcome(handle, frames[n - 1]) {
          case Err(f) => Err(f)
          case Ok(dets) => Ok(acc + Tagged(dets, n))
        }
    }
  }

  /** Every entry of a completed run carries the number of a handled frame. */
  lemma {:induction false} VideoRunFrameNumbers(frames: seq<Image>, n: nat, handle: Image -> Result<seq<Detection>>)
    requires VideoRun(frames, n, handle).Ok?
    ensures forall e :: e in VideoRun(frames, n, handle).value ==> 1 <= e.frame <= n
    decreases n
  {
    if n > 0 {
      VideoRunFrameNumbers(frames, n - 1, handle);
      var acc := VideoRun(frames, n - 1, handle).value;
      var tagged := Tagged(FrameOutcome(handle, frames[n - 1]).value, n);
      assert VideoRun(frames, n, handle).value == acc + tagged;
      forall e: FrameDetection | e in acc + tagged
        ensures 1 <= e.frame <= n
      {
        if e !in acc {
          var i :| 0 <= i < |tagged| && tagged[i] == e;
        }
      }
    }
  }

  /** A frame handled without error extends the accumulated frame data. */
  lemma VideoRunAdvance(frames: seq<Image>, n: nat, handle: Image -> Result<seq<Detection>>,
                        acc: seq<FrameDetection>, dets: seq<Detection>)
    requires 0 < n && n - 1 < |frames|
    requires VideoRun(frames, n - 1, handle) == Ok(acc)
    requires FrameOutcome(handle, frames[n - 1]) == Ok(dets)
    ensures VideoRun(frames, n, handle) == Ok(acc + Tagged(dets, n))
  {
  }

  /** Once a frame has raised, the later frames are never reached. */
  lemma {:induction false} VideoRunErrIsFinal(frames: seq<Image>, m: nat, n: nat,
                                             handle: Image -> Result<seq<Detection>>)
    requires m <= n
    requires VideoRun(frames, m, handle).Err?
    ensures VideoRun(frames, n, handle) == VideoRun(frames, m, handle)
    decreases n
  {
    if m < n {
      VideoRunErrIsFinal(frames, m, n - 1, handle);
    }
  }

  /** A frame that is missing or raises ends the run with its exception,
      however many frames the loop would otherwise handle. */
  lemma {:induction false} VideoRunStops(frames: seq<Image>, n: nat, m: nat, handle: Image -> Result<seq<Detection>>)
    requires 0 < n <= m
    requires VideoRun(frames, n - 1, handle).Ok?
    requires n - 1 >= |frames| || FrameOutcome(handle, frames[n - 1]).Err?
    ensures VideoRun(frames, m, handle)
            == Err(if n - 1 >= |frames| then NoFrame else FrameOutcome(handle, frames[n - 1]).fault)
  {
    VideoRunErrIsFinal(frames, n, m, handle);
  }

  /** The detections tagged with frame `k`, in order. */
  function OfFrame(s: seq<FrameDetection>, k: nat): (r: seq<Detection>)
    ensures |r| <= |s|
  {
    if s == [] then []
    else (if s[0].frame == k then [s[0].detection] else []) + OfFrame(s[1..], k)
  }

  lemma {:induction false} OfFrameAppend(a: seq<FrameDetection>, b: seq<FrameDetection>, k: nat)
    ensures OfFrame(a + b, k) == OfFrame(a, k) + OfFrame(b, k)
    decreases |a|
  {
    if a == [] {
      assert a + b == b;
    } else {
      var ab := a + b;
      assert ab[0] == a[0] && ab[1..] == a[1..] + b;
      OfFrameAppend(a[1..], b, k);
      var head := if a[0].frame == k then [a[0].detection] else [];
      assert OfFrame(ab, k) == head + OfFrame(a[1..] + b, k);
      assert OfFrame(a, k) == head + OfFrame(a[1..], k);
    }
  }

  lemma {:induction false} OfFrameTagged(dets: seq<Detection>, ind: nat, k: nat)
    ensures OfFrame(Tagged(dets, ind), k) == if ind == k then dets else []
    decreases |dets|
  {
    if dets != [] {
      assert Tagged(dets, ind)[1..] == Tagged(dets[1..], ind);
      OfFrameTagged(dets[1..], ind, k);
      assert dets == [dets[0]] + dets[1..];
    }
  }

  /** The loop completes `n` frames exactly when the source has `n` frames
      and none of them raises. */
  lemma {:induction false} VideoRunOk(frames: seq<Image>, n: nat, handle: Image -> Result<seq<Detection>>)
    ensures VideoRun(frames, n, handle).Ok? <==>
            n <= |frames| && forall k :: 0 <= k < n ==> FrameOutcome(handle, frames[k]).Ok?
    decreases n
  {
    if n > 0 {
      VideoRunOk(frames, n - 1, handle);
    }
  }

  /** After a completed run, the detections tagged `k` are exactly frame
      `k`'s detections in their own order, for every handled frame `k`, and
      there are no others. */
  lemma {:induction false} VideoRunFrames(frames: seq<Image>, n: nat, handle: Image -> Result<seq<Detection>>, k: nat)
    requires VideoRun(frames, n, handle).Ok?
    ensures 1 <= k <= n ==>
      k - 1 < |frames| && FrameOutcome(handle, frames[k - 1]).Ok? &&
      OfFrame(VideoRun(frames, n, handle).value, k) == FrameOutcome(handle, frames[k - 1]).value
    ensures !(1 <= k <= n) ==> OfFrame(VideoRun(frames, n, handle).value, k) == []
    decreases n
  {
    if n > 0 {
      VideoRunFrames(frames, n - 1, handle, k);
      var acc := VideoRun(frames, n - 1, handle).value;
      var dets := FrameOutcome(handle, frames[n - 1]).value;
      OfFrameAppend(acc, Tagged(dets, n), k);
      OfFrameTagged(dets, n, k);
      if k == n {
        VideoRunOk(frames, n - 1, handle);
        VideoRunFrameNumbers(frames, n - 1, handle);
        OfFrameNone(acc, k);
      }
    }
  }

  lemma {:induction false} OfFrameNone(s: seq<FrameDetection>, k: nat)
    requires forall e :: e in s ==> e.frame < k
    ensures OfFrame(s, k) == []
    decreases |s|
  {
    if s != [] {
      assert forall e :: e in s[1..] ==> e in s;
      OfFrameNone(s[1..], k);
    }
  }

  /** As written, a source with fewer frames than the cap never lets the
      loop finish: when every frame it has is handled without error, the
      read past its end raises NoFrame. */
  lemma {:induction false} ShortSourceRaises(frames: seq<Image>, n: nat, handle: Image -> Result<seq<Detection>>)
    requires |frames| < n
    requires forall k :: 0 <= k < |frames| ==> FrameOutcome(handle, frames[k]).Ok?
    ensures VideoRun(frames, n, handle) == Err(NoFrame)
    decreases n
  {
    VideoRunOk(frames, |frames|, handle);
    if n - 1 > |frames| {
      ShortSourceRaises(frames, n - 1, handle);
    }
  }

  /** The number of frames a loop that stops at the end of the source handles. */
  function FramesHandled(frames: seq<Image>): (n: nat)
    ensures n <= FrameCap && n <= |frames|
    ensures n == FrameCap || n == |frames|
  {
    if |frames| < FrameCap then |frames| else FrameCap
  }

  /** With the end of the source checked, the loop finishes for every source
      whose frames are handled without error, however short; VideoRunFrames
      and VideoRunFrameNumbers then say which frames it reports. */
  lemma CheckedRunCompletes(frames: seq<Image>, handle: Image -> Result<seq<Detection>>)
    requires forall k :: 0 <= k < |frames| ==> FrameOutcome(handle, frames[k]).Ok?
    ensures VideoRun(frames, FramesHandled(frames), handle).Ok?
  {
    VideoRunOk(frames, FramesHandled(frames), handle);
  }
}
